=== FILE: README.md ===
# Cursor allocators of the ArceOS memory layer, in Dafny

This project models the two cursor-based allocators of the ArceOS teaching
kernel's memory-allocation layer and proves properties of them:

- `EarlyAllocator<PAGE_SIZE>`, the early double-ended bump allocator. It
  serves byte requests upward from `start` and page requests downward from
  `end`. Byte space comes back one footprint at a time, or all at once when
  the live count reaches zero. Pages never come back.
- `LabByteAllocator`, the lab's hybrid allocator. Alignment-8 requests go to
  a buddy allocator over the first 256 KiB. Alignment-1 requests alternate
  by the parity of a counter:
  - even-numbered requests re-point a `free` cursor at `MEMORY_END - size`;
  - odd-numbered requests bump a `keep` cursor upward.

  The keep area is reclaimed in bulk when the counter returns to zero.

Modules:

- `Bits`: the 64-bit `usize` range as the subset type `Usize`, and powers of
  two (`is_power_of_two`, `next_power_of_two`). It also defines bitwise AND
  and NOT on naturals. The mask `x & !(a - 1)` is proved to be `x - x % a`.
- `Allocator`: the shared interface. It holds `AllocError`, `AllocResult`,
  Rust's `Layout` with its validity rule, and the `NonNull` null check.
- `BumpAllocator`: `EarlyAllocator` and its lemmas.
- `LabAllocator`: `LabByteAllocator` and its lemmas.

Every operation is a pure function from the old state to the new state,
paired with its result. In the source, an arithmetic overflow or underflow
panics. Each such panic is a precondition here, stated exactly at the
panicking condition (the `...Defined` predicates). The `PAGE_SIZE` const
generic is the `pageSize` argument. The buddy allocator is outside the
model: its state is the type parameter `B`, and its operations are supplied
as the function record `BuddyOps<B>`, about which nothing is assumed.

## Model

| member | source | states |
|---|---|---|
| Bits.AndNotLowMask | arceos/modules/bump_allocator/src/lib.rs:43-48 | For a power-of-two `a`, the 64-bit mask `x & !(a - 1)` equals `x - x % a`: the low bits below `a` are cleared. |
| Bits.NextPowerOfTwo | arceos/modules/bump_allocator/src/lib.rs:66-67 | `next_power_of_two(n)` is a power of two, at least `n`, and 1 or less than twice `n`. |
| Bits.NextPowerOfTwoIsLeast | arceos/modules/bump_allocator/src/lib.rs:66-67 | No power of two at least `n` is smaller than `next_power_of_two(n)`. |
| Bits.PowerOfTwoIsPow2 | arceos/modules/bump_allocator/src/lib.rs:112 | `is_power_of_two(n)` holds exactly when `n` is `2^k` for some `k`, so 0 is not a power of two. |
| Allocator.NonNullOrNoMemory | arceos/modules/bump_allocator/src/lib.rs:75 | `NonNull::new(addr).ok_or(NoMemory)` succeeds exactly for a nonzero address and returns it unchanged. The null address gives `NoMemory`. |
| BumpAllocator.AlignUp | arceos/modules/bump_allocator/src/lib.rs:43-45 | For a power-of-two alignment, the masked value is a multiple of `align`. It lies in `[pos, pos + align)`. |
| BumpAllocator.AlignDown | arceos/modules/bump_allocator/src/lib.rs:46-48 | For a power-of-two alignment, the masked value is a multiple of `align`. It lies in `(pos - align, pos]`. |
| BumpAllocator.AlignUpIsLeast | arceos/modules/bump_allocator/src/lib.rs:43-45 | No multiple of `align` at or above `pos` lies below `align_up(pos)`. |
| BumpAllocator.AlignDownIsGreatest | arceos/modules/bump_allocator/src/lib.rs:46-48 | No multiple of `align` at or below `pos` lies above `align_down(pos)`. |
| BumpAllocator.AlignDownIsUnique | arceos/modules/bump_allocator/src/lib.rs:46-48 | The multiple of `align` in `(pos - align, pos]` is exactly `align_down(pos)`. |
| BumpAllocator.AlignUpOfAligned | arceos/modules/bump_allocator/src/lib.rs:43-45 | Aligning an already aligned address leaves it unchanged. |
| BumpAllocator.AlignUpNull | arceos/modules/bump_allocator/src/lib.rs:43-45 | `align_up` yields 0 exactly for address 0. |
| BumpAllocator.New | arceos/modules/bump_allocator/src/lib.rs:32-40 | Every field is 0: an empty region at address 0, which satisfies the cursor invariant and has no live allocations. |
| BumpAllocator.Init | arceos/modules/bump_allocator/src/lib.rs:51-56 | After `init(start, size)`, the cursors are in order, the total is `size`, and nothing is used. The page cursor is at `end`, and `count` is not reset. |
| BumpAllocator.Footprint | arceos/modules/bump_allocator/src/lib.rs:66-69 | The bytes one request consumes is the max of three values: the next power of two of the size, the alignment, and the word size. It is a power of two and a multiple of the alignment. It is the least such value: above the floor of align and word size, half of it is below the size. |
| BumpAllocator.Alloc | arceos/modules/bump_allocator/src/lib.rs:64-77 | A request is refused, changing nothing, exactly when its aligned block would pass `page_pos`. Otherwise only `byte_pos` and `count` change. The block returned is the aligned-up cursor, is aligned, and fits below `page_pos`. A null block is committed but reported as `NoMemory`. The cursor invariant is preserved. |
| BumpAllocator.Dealloc | arceos/modules/bump_allocator/src/lib.rs:79-89 | `count` goes down by one. The byte area is emptied when `count` reaches zero. Otherwise one footprint comes off `byte_pos`, and nothing else changes. |
| BumpAllocator.PageAlignValid | arceos/modules/bump_allocator/src/lib.rs:108-113 | For a power-of-two page size, the accepted alignments (a multiple of the page size with a power-of-two page count) are exactly the powers of two that are at least one page. |
| BumpAllocator.PageTarget | arceos/modules/bump_allocator/src/lib.rs:111-116 | The new page cursor lies at least `num_pages` pages below the old one. It is a multiple of `align_pow2 / PAGE_SIZE`, and less than one such unit below the lowered cursor, so it is the highest such multiple. |
| BumpAllocator.AllocPages | arceos/modules/bump_allocator/src/lib.rs:107-123 | The request is `InvalidParam` exactly when `align_pow2` is not a multiple of the page size, or the quotient is not a power of two. It is `NoMemory` exactly when the alignment is valid and the page target falls below `byte_pos`. A refusal changes nothing. Success moves only `page_pos`, to the page target, and returns it. The cursor invariant is preserved. |
| BumpAllocator.TotalBytes | arceos/modules/bump_allocator/src/lib.rs:91-93 | The total is the length of the region: `start + total == end`. |
| BumpAllocator.UsedBytes | arceos/modules/bump_allocator/src/lib.rs:95-97 | The used bytes are the length of the byte area `[start, byte_pos)`. They are zero exactly when that area is empty, and at most the total while `byte_pos <= end`. |
| BumpAllocator.AvailableBytes | arceos/modules/bump_allocator/src/lib.rs:99-101 | The available bytes are the length of the gap `[byte_pos, page_pos)`. They are at most the total while both cursors lie in the region. |
| BumpAllocator.TotalPages | arceos/modules/bump_allocator/src/lib.rs:129-131 | The count of whole pages in the region: that many pages fit, one more does not. |
| BumpAllocator.UsedPages | arceos/modules/bump_allocator/src/lib.rs:133-135 | The count of whole pages in the page area `[page_pos, end)`: that many pages fit, one more does not. |
| BumpAllocator.AvailablePages | arceos/modules/bump_allocator/src/lib.rs:137-139 | The count of whole pages in the gap `[byte_pos, page_pos)`: that many pages fit, one more does not. |
| BumpAllocator.CapacityIdentity | arceos/modules/bump_allocator/src/lib.rs:91-101 | Under the invariant, used bytes, available bytes and the page area add up to the total. |
| BumpAllocator.PageCapacityBound | arceos/modules/bump_allocator/src/lib.rs:129-139 | Under the invariant, used pages plus available pages is at most the total page count. |
| BumpAllocator.AllocDeallocRoundTrip | arceos/modules/bump_allocator/src/lib.rs:64-89 | A granted request from an aligned cursor, released at once with the same layout, restores the allocator. The one exception: the byte area resets to `start` when that request was the only live one. |
| BumpAllocator.AllocThenReleaseAll | arceos/modules/bump_allocator/src/lib.rs:64-89 | `n` equal requests from an empty area whose nonzero start is aligned get consecutive footprints. `n` releases, at any addresses, restore the allocator exactly. The next request is then served at `start` again. |
| BumpAllocator.AllocRun | arceos/modules/bump_allocator/src/lib.rs:64-77 | `n` equal requests from an empty, aligned byte area are all granted, at `start + k * footprint`. |
| BumpAllocator.ReleaseRun | arceos/modules/bump_allocator/src/lib.rs:79-89 | Releasing as many blocks as are live returns the allocator to its empty state. |
| BumpAllocator.PageAllocationScenario | arceos/modules/bump_allocator/src/lib.rs:107-139 | On a new allocator after `init(0x10000, 0x10000)` (`ScenarioState`), with 4 KiB pages, one page-aligned page is `0x1F000` and one page is then in use. An alignment of 4097 is refused with `InvalidParam`. |
| BumpAllocator.AllocPagesIgnoresByteAlignment | arceos/modules/bump_allocator/src/lib.rs:111-121 | As written, an 8 KiB-aligned page request returns `0x1F000`, which is not a multiple of 8192. |
| BumpAllocator.AllocPagesAligned | arceos/modules/bump_allocator/src/lib.rs:107-123 | Corrected `alloc_pages`: the block is a multiple of `align_pow2` and of the page size. It fits between `byte_pos` and the old `page_pos`, and the invariant is preserved. |
| BumpAllocator.AllocPagesAlignedHonoursAlignment | arceos/modules/bump_allocator/src/lib.rs:111-121 | Under the corrected definition, the same 8 KiB-aligned request returns `0x1E000`. |
| LabAllocator.New | arceos/labs/lab_allocator/src/lib.rs:29-37 | A fresh allocator holds the given buddy state, no live alignment-1 allocations, and `start`, `keep` and `free` all at 0. |
| LabAllocator.Init | arceos/labs/lab_allocator/src/lib.rs:43-48 | The buddy gets `[start, start + 2^18)`. `start` and `keep` become `start + 2^18`. `count` and `free` are untouched. |
| LabAllocator.InitIgnoresSize | arceos/labs/lab_allocator/src/lib.rs:43-48 | The `size` argument of `init` has no effect on the result. |
| LabAllocator.Alloc | arceos/labs/lab_allocator/src/lib.rs:55-83 | Alignment 8 is entirely the buddy's business. Alignment 1 always increments `count`. With an even count, `free` becomes `MEMORY_END - size`, and the request is granted (at `free`) exactly when `keep <= free`. With an odd count, `keep` grows by `size`, and the request is granted (at the old `keep`) exactly when the new `keep <= MEMORY_END` and the old `keep` is not null. Refusals are `NoMemory` and are not rolled back. |
| LabAllocator.AllocInvariant | arceos/labs/lab_allocator/src/lib.rs:61-78 | After a request, the cursors are in order exactly when one of three holds: it went to the buddy, it was a granted free-side request, or it was a keep-side request that stayed at or below `free`. |
| LabAllocator.KeepSideCanOverlapFree | arceos/labs/lab_allocator/src/lib.rs:72-77 | A keep-side request that crosses `free` but stays below `MEMORY_END` is granted. It leaves `keep` above `free`. |
| LabAllocator.Dealloc | arceos/labs/lab_allocator/src/lib.rs:84-96 | Alignment 8 is entirely the buddy's business. Any other alignment decrements `count`, resets `keep` to `start` exactly when `count` reaches zero, and never moves `free`. |
| LabAllocator.DeallocInvariant | arceos/labs/lab_allocator/src/lib.rs:84-96 | A release preserves the order of the cursors. |
| LabAllocator.TotalBytes | arceos/labs/lab_allocator/src/lib.rs:97-99 | The total is everything from the end of the buddy zone up to `MEMORY_END`: `start + total == MEMORY_END`. |
| LabAllocator.UsedBytes | arceos/labs/lab_allocator/src/lib.rs:100-102 | The used bytes are the lengths of the keep area `[start, keep)` and the free-side block `[free, MEMORY_END)` added together. They are zero exactly when the keep area is empty and `free` is at `MEMORY_END`. With the cursors in order, they are at most the total. |
| LabAllocator.AvailableBytes | arceos/labs/lab_allocator/src/lib.rs:103-105 | The available bytes are the length of the gap `[keep, free)`. With the cursors in order, they are at most the total. |
| LabAllocator.CapacityIdentity | arceos/labs/lab_allocator/src/lib.rs:97-105 | With `start <= keep <= free <= MEMORY_END`, used bytes plus available bytes equal the total. |
| LabAllocator.ThreeSmallRequests | arceos/labs/lab_allocator/src/lib.rs:60-78 | From an empty keep area, three 16-byte requests return `MEMORY_END - 16`, then `start`, then `MEMORY_END - 16` again. |
| LabAllocator.AlternateThenReleaseAll | arceos/labs/lab_allocator/src/lib.rs:60-95 | In a run of `n` equal requests, even-numbered ones all get `MEMORY_END - size` and odd-numbered ones get consecutive keep blocks. Releasing all `n` empties the keep area and leaves `free` where the run put it. |
| LabAllocator.AlternatingRun | arceos/labs/lab_allocator/src/lib.rs:60-78 | Every request of the alternating run is granted, at the addresses above. |
| LabAllocator.AlternatingStep | arceos/labs/lab_allocator/src/lib.rs:60-78 | One request of the run is granted, and the keep area grows by one block on odd steps only. |
| LabAllocator.InitLeavesFreeBelowKeep | arceos/labs/lab_allocator/src/lib.rs:43-48 | As written, right after `init` we have `free = 0 < keep`. The invariant fails, and used bytes (`MEMORY_END`) exceed the total. |
| LabAllocator.InitWithFreeAtEnd | arceos/labs/lab_allocator/src/lib.rs:43-48 | Corrected `init`, with `free` at `MEMORY_END`. The cursors are in order, nothing is used, and all bytes above the buddy zone are available. |

## Left out

- `add_memory` and `dealloc_pages` of the early allocator, and `add_memory` of the lab allocator: their bodies are `todo!()` and `unreachable!()`, so there is no behaviour to model.
- Lab `alloc` with an alignment other than 1 or 8 reaches `unreachable!()`. It is excluded by the precondition `AllocDefined`.
- Panics: arithmetic overflow and underflow (for example `count -= 1` at zero, or `free - keep` with `keep > free`) are preconditions. Release-mode wrap-around is not modelled.
- The `info!` log line of lab `init` is left out. Its `MEMORY_END - start` is only evaluated when logging is enabled.
- The buddy allocator (`BuddyByteAllocator`) is not part of this model. Its state and operations are parameters, and nothing about them is assumed or proved.
- Pointers are addresses (`Usize`). No memory is read or written. The address passed to `dealloc` is ignored by the early allocator and by the lab allocator's non-8 branch. With alignment 8, the lab allocator hands it to the buddy's `dealloc` (`LabAllocator.Dealloc`).
- Hybrid collisions: a keep-side request is checked against `MEMORY_END` only, never against `free`. `count` and `keep` are committed before the check and are not rolled back. So a granted keep-side block can overlap the latest free-side block (`LabAllocator.Alloc`, `LabAllocator.KeepSideCanOverlapFree`).
- The free-side null check of lab `alloc` cannot fail, because sizes stay below `isize::MAX` and therefore `MEMORY_END - size > 0`. It is modelled anyway, through the shared `Allocator.NonNullOrNoMemory`.

## Findings

| source | as written | input that shows it | evidently intended | confidence | as-written member | corrected member |
|---|---|---|---|---|---|---|
| arceos/modules/bump_allocator/src/lib.rs:111-116 | `align_pow2` is rebound to `align_pow2 / PAGE_SIZE`, and the page cursor is aligned to that many bytes | `alloc_pages(1, 8192)` with 4 KiB pages after `init(0x10000, 0x10000)` returns `0x1F000`, which is not 8 KiB-aligned | the block is aligned to `align_pow2` bytes (`0x1E000` here) | high; not executed | BumpAllocator.AllocPagesIgnoresByteAlignment | BumpAllocator.AllocPagesAligned |
| arceos/labs/lab_allocator/src/lib.rs:43-48 | `init` sets `start` and `keep` but leaves `free` at 0 | `init(s, n)` on a fresh allocator: then `keep = s + 2^18 > 0 = free`, `used_bytes` returns `MEMORY_END`, and `available_bytes` underflows | `free` starts at `MEMORY_END`, so the free area is empty and everything above the buddy zone is available | medium; not executed | LabAllocator.InitLeavesFreeBelowKeep | LabAllocator.InitWithFreeAtEnd |

=== FILE: allocator.dfy ===
/**
 The allocator interface both allocators implement: the recoverable errors,
 the result of an allocation, and the request descriptor (Rust's `Layout`).
 */
module Allocator {
  import opened Bits

  /** The two recoverable failures of an allocation request. */
  datatype AllocError = InvalidParam | NoMemory

  /** `AllocResult<T>`: a value or one of the recoverable failures. */
  datatype AllocResult<+T> = Ok(value: T) | Err(error: AllocError)

  /** The size of a machine word, `size_of::<usize>()`. */
  const WORD_SIZE: Usize := 8

  /**
   An allocation request: `size` bytes at an address that is a multiple of
   `align`. A well-formed layout has a power-of-two alignment and a size that,
   rounded up to the alignment, does not exceed `isize::MAX`.
   */
  datatype Layout = Layout(size: Usize, align: Usize) {
    predicate Valid() {
      IsPowerOfTwo(align) && size + align - 1 <= ISIZE_MAX
    }
  }

  /** `NonNull::new(addr).ok_or(NoMemory)`: the null address is reported as `NoMemory`. */
  function NonNullOrNoMemory(addr: Usize): (r: AllocResult<Usize>)
    ensures r.Ok? <==> addr != 0
    ensures r.Ok? ==> r.value == addr
    ensures r.Err? ==> r.error == NoMemory
  {
    if addr == 0 then Err(NoMemory) else Ok(addr)
  }
}

=== FILE: bits.dfy ===
/**
 Machine-word arithmetic of a 64-bit target, stated over unbounded naturals:
 the `usize` range, powers of two (`is_power_of_two`, `next_power_of_two`)
 and the bitwise AND / NOT that the allocators use for alignment masks.
 */
module Bits {

  /** 2^64: one past the largest `usize`. */
  const USIZE_LIMIT: nat := 0x1_0000_0000_0000_0000

  /** Largest `isize`, the bound Rust's `Layout` puts on a rounded-up size. */
  const ISIZE_MAX: nat := 0x7fff_ffff_ffff_ffff

  /** 2^63: the highest bit of a `usize`, the largest power of two it holds. */
  const USIZE_HIGH_BIT: nat := 0x8000_0000_0000_0000

  /** A value of Rust's `usize` on a 64-bit target. */
  type Usize = x: nat | x < USIZE_LIMIT

  /** 2^k */
  function Pow2(k: nat): (r: nat)
    ensures r >= 1
  {
    if k == 0 then 1 else 2 * Pow2(k - 1)
  }

  /** `is_power_of_two`: exactly one bit set, so 0 is not a power of two. */
  predicate IsPowerOfTwo(n: nat)
    decreases n
  {
    if n <= 1 then n == 1 else n % 2 == 0 && IsPowerOfTwo(n / 2)
  }

  /** `m` is a multiple of `a` (every address is a multiple of 1). */
  predicate IsMultipleOf(m: nat, a: nat)
    requires a > 0
  {
    m % a == 0
  }

  /** The exponent of a power of two. */
  function Log2(n: nat): (k: nat)
    requires IsPowerOfTwo(n)
    ensures Pow2(k) == n
    decreases n
  {
    if n == 1 then 0 else 1 + Log2(n / 2)
  }

  lemma {:induction false} Pow2IsPowerOfTwo(k: nat)
    ensures IsPowerOfTwo(Pow2(k))
  {
    if k > 0 {
      Pow2IsPowerOfTwo(k - 1);
    }
  }

  lemma {:induction false} Pow2Add(i: nat, j: nat)
    ensures Pow2(i + j) == Pow2(i) * Pow2(j)
    decreases i
  {
    if i > 0 {
      Pow2Add(i - 1, j);
    }
  }

  /** The 64 bits of a `usize`: 2^64 is the word limit. */
  lemma Pow2WordLimit()
    ensures Pow2(64) == USIZE_LIMIT
  {
    assert Pow2(4) == 16;
    Pow2Add(4, 4);
    assert Pow2(8) == 0x100;
    Pow2Add(8, 8);
    assert Pow2(16) == 0x1_0000;
    Pow2Add(16, 16);
    assert Pow2(32) == 0x1_0000_0000;
    Pow2Add(32, 32);
  }

  lemma HighBitIsPowerOfTwo()
    ensures IsPowerOfTwo(USIZE_HIGH_BIT)
  {
    Pow2WordLimit();
    Pow2IsPowerOfTwo(63);
  }

  /** `is_power_of_two` holds exactly for the numbers `2^k`. */
  lemma {:induction false} PowerOfTwoIsPow2(n: nat)
    ensures IsPowerOfTwo(n) <==> exists k: nat :: Pow2(k) == n
  {
    if IsPowerOfTwo(n) {
      var k := Log2(n);
      assert Pow2(k) == n;
    }
    if exists k: nat :: Pow2(k) == n {
      var k: nat :| Pow2(k) == n;
      Pow2IsPowerOfTwo(k);
    }
  }

  /** A power of two divided by a smaller one leaves no remainder and a power of two. */
  lemma {:induction false} PowerOfTwoQuotient(p: nat, a: nat)
    requires IsPowerOfTwo(p) && IsPowerOfTwo(a) && p <= a
    ensures a % p == 0 && IsPowerOfTwo(a / p)
    decreases a
  {
    if p != 1 {
      PowerOfTwoQuotient(p / 2, a / 2);
      var q := (a / 2) / (p / 2);
      MultipleIsProduct(a / 2, p / 2);
      assert a == 2 * ((p / 2) * q);
      assert a == p * q by {
        assert p == 2 * (p / 2);
      }
      ModOfExact(a, p, q, 0);
    }
  }

  /**
   For a power of two `p`, the numbers that `p` divides with a power-of-two
   quotient are exactly the powers of two at least `p`.
   */
  lemma {:induction false} PowerOfTwoMultiples(p: nat, a: nat)
    requires p > 0
    ensures IsPowerOfTwo(p) ==> ((a % p == 0 && IsPowerOfTwo(a / p)) <==> IsPowerOfTwo(a) && p <= a)
  {
    if IsPowerOfTwo(p) && a % p == 0 && IsPowerOfTwo(a / p) {
      PowerOfTwoTimes(p, a);
    }
    if IsPowerOfTwo(p) && IsPowerOfTwo(a) && p <= a {
      PowerOfTwoQuotient(p, a);
    }
  }

  /** A multiple of `p` whose quotient is a power of two is a power of two at least `p`. */
  lemma {:induction false} PowerOfTwoTimes(p: nat, a: nat)
    requires IsPowerOfTwo(p) && a % p == 0 && IsPowerOfTwo(a / p)
    ensures IsPowerOfTwo(a) && p <= a
  {
    var q := a / p;
    MultipleIsProduct(a, p);
    PowerOfTwoProduct(p, q);
    MulMonotone(p, 1, q);
  }

  /** A smaller power of two divides a larger one. */
  lemma {:induction false} PowerOfTwoDivides(a: nat, b: nat)
    requires IsPowerOfTwo(a) && IsPowerOfTwo(b) && a <= b
    ensures IsMultipleOf(b, a)
    decreases b
  {
    if a != b && a != 1 {
      PowerOfTwoDivides(a / 2, b / 2);
      var t := (b / 2) / (a / 2);
      assert b / 2 == (a / 2) * t;
      assert b == a * t;
      MultipleOfProduct(a, t);
    }
  }

  /** A multiple of `d` is `d` times its quotient. */
  lemma MultipleIsProduct(x: nat, d: nat)
    requires d > 0 && IsMultipleOf(x, d)
    ensures x == d * (x / d)
  {
  }

  lemma MultipleOfProduct(a: nat, t: nat)
    requires a > 0
    ensures IsMultipleOf(a * t, a)
  {
    ModOfExact(a * t, a, t, 0);
  }

  /** Division is unique: a quotient/remainder pair determines `x % d`. */
  lemma ModOfExact(x: nat, d: nat, q: nat, rem: nat)
    requires 0 <= rem < d && x == d * q + rem
    ensures x % d == rem && x / d == q
  {
    var q' := x / d;
    MulStep(d, q', q);
    MulStep(d, q, q');
  }

  lemma MulStep(d: nat, i: nat, j: nat)
    ensures i < j ==> d * i + d <= d * j
  {
    if i < j {
      MulMonotone(d, i + 1, j);
    }
  }

  lemma MulMonotone(d: nat, i: nat, j: nat)
    requires i <= j
    ensures d * i <= d * j
  {
  }

  /** Splitting off the lowest bit of `x` modulo twice a divisor. */
  lemma ModDouble(x: nat, p: nat)
    requires p > 0
    ensures x % (2 * p) == 2 * ((x / 2) % p) + x % 2
  {
    var q := x / 2;
    var s, t := q % p, q / p;
    assert q == p * t + s;
    assert x == (2 * p) * t + (2 * s + x % 2);
    ModOfExact(x, 2 * p, t, 2 * s + x % 2);
  }

  /** The page sizes and alignments that appear in the concrete scenarios. */
  lemma SmallPowersOfTwo()
    ensures IsPowerOfTwo(1) && IsPowerOfTwo(2) && IsPowerOfTwo(4096) && IsPowerOfTwo(8192)
  {
    assert IsPowerOfTwo(1);
    assert IsPowerOfTwo(2);
    assert IsPowerOfTwo(4);
    assert IsPowerOfTwo(8);
    assert IsPowerOfTwo(16);
    assert IsPowerOfTwo(32);
    assert IsPowerOfTwo(64);
    assert IsPowerOfTwo(128);
    assert IsPowerOfTwo(256);
    assert IsPowerOfTwo(512);
    assert IsPowerOfTwo(1024);
    assert IsPowerOfTwo(2048);
    assert IsPowerOfTwo(4096);
  }

  /** `next_power_of_two`: the least power of two that is at least `n` (1 for 0). */
  function NextPowerOfTwo(n: nat): (r: nat)
    ensures IsPowerOfTwo(r)
    ensures n <= r
    ensures r == 1 || r / 2 < n
    decreases n
  {
    if n <= 1 then 1 else 2 * NextPowerOfTwo((n + 1) / 2)
  }

  /** No power of two at least `n` lies below `NextPowerOfTwo(n)`. */
  lemma {:induction false} NextPowerOfTwoIsLeast(n: nat, p: nat)
    requires IsPowerOfTwo(p) && n <= p
    ensures NextPowerOfTwo(n) <= p
    decreases n
  {
    if n > 1 {
      NextPowerOfTwoIsLeast((n + 1) / 2, p / 2);
    }
  }

  /** `next_power_of_two` does not overflow a `usize` for inputs up to 2^63. */
  lemma NextPowerOfTwoFits(n: nat)
    requires n <= USIZE_HIGH_BIT
    ensures NextPowerOfTwo(n) <= USIZE_HIGH_BIT
  {
    HighBitIsPowerOfTwo();
    NextPowerOfTwoIsLeast(n, USIZE_HIGH_BIT);
  }

  /** Bitwise AND of two naturals, bit by bit from the least significant. */
  function And(x: nat, y: nat): nat
    decreases x
  {
    if x == 0 || y == 0 then 0
    else 2 * And(x / 2, y / 2) + (if x % 2 == 1 && y % 2 == 1 then 1 else 0)
  }

  /** Bitwise NOT of a `usize`. */
  function Not(x: Usize): Usize
  {
    USIZE_LIMIT - 1 - x
  }

  /** ANDing never sets a bit that `x` does not have, so it never exceeds `x`. */
  lemma {:induction false} AndAtMost(x: nat, y: nat)
    ensures And(x, y) <= x
    decreases x
  {
    if x != 0 && y != 0 {
      AndAtMost(x / 2, y / 2);
    }
  }

  /** Below a power of two `q`, the mask `q - 1` keeps every bit of `x`. */
  lemma {:induction false} AndAllOnes(x: nat, q: nat)
    requires IsPowerOfTwo(q) && x < q
    ensures And(x, q - 1) == x
    decreases q
  {
    if x > 0 {
      assert q == 2 * (q / 2) && IsPowerOfTwo(q / 2) && x / 2 < q / 2 by {
        HalfBelow(x, q / 2);
      }
      AndAllOnes(x / 2, q / 2);
      AndOddMask(x, q / 2 - 1);
    }
  }

  /**
   ANDing with the bits from `p` up to below `q` (both powers of two) clears
   the bits of `x` below `p`.
   */
  lemma {:induction false} AndClearsLowBits(x: nat, p: nat, q: nat)
    requires IsPowerOfTwo(p) && IsPowerOfTwo(q) && p <= q && x < q
    ensures And(x, q - p) == x - x % p
    decreases p
  {
    if p == 1 {
      AndAllOnes(x, q);
      ModOfExact(x, 1, x, 0);
    } else if p == q {
      ModOfExact(x, p, 0, x);
    } else if x == 0 {
      ModOfExact(0, p, 0, 0);
    } else {
      var p', q' := p / 2, q / 2;
      assert IsPowerOfTwo(p') && IsPowerOfTwo(q') && p' < q' && x / 2 < q' by {
        HalfBelow(x, q');
      }
      AndClearsLowBits(x / 2, p', q');
      ClearLowBitsCombine(x, p', q', p, q);
    }
  }

  lemma HalfBelow(x: nat, q: nat)
    requires x < 2 * q
    ensures x / 2 < q
  {
  }

  /** The induction step of `AndClearsLowBits`, one bit up. */
  lemma ClearLowBitsCombine(x: nat, p: nat, q: nat, p2: nat, q2: nat)
    requires x > 0 && 1 <= p < q && p2 == 2 * p && q2 == 2 * q
    requires And(x / 2, q - p) == x / 2 - (x / 2) % p
    ensures And(x, q2 - p2) == x - x % p2
  {
    ModDouble(x, p);
    ClearLowBitsStep(x, x / 2, q - p, (x / 2) % p, x % p2);
    assert q2 - p2 == 2 * (q - p);
  }

  /** One bit of the induction: an even mask drops the lowest bit of `x`. */
  lemma ClearLowBitsStep(x: nat, h: nat, m: nat, s: nat, lo: nat)
    requires h == x / 2 && m > 0 && x > 0
    requires And(h, m) == h - s && s <= h
    requires lo == 2 * s + x % 2
    ensures And(x, 2 * m) == x - lo
  {
    AndEvenMask(x, m);
  }

  /** ANDing with an even mask drops the lowest bit. */
  lemma AndEvenMask(x: nat, m: nat)
    requires x > 0 && m > 0
    ensures And(x, 2 * m) == 2 * And(x / 2, m)
  {
    var y := 2 * m;
    assert y != 0 && y / 2 == m && y % 2 == 0;
    assert And(x, y) == 2 * And(x / 2, y / 2) + 0;
  }

  /** ANDing with an odd mask keeps the lowest bit. */
  lemma AndOddMask(x: nat, m: nat)
    requires x > 0
    ensures And(x, 2 * m + 1) == 2 * And(x / 2, m) + x % 2
  {
    var y := 2 * m + 1;
    assert y != 0 && y / 2 == m && y % 2 == 1;
    assert And(x, y) == 2 * And(x / 2, y / 2) + (if x % 2 == 1 then 1 else 0);
  }

  /**
   `x & !(a - 1)` for a power-of-two `a`: `x` rounded down to a multiple of `a`.
   */
  lemma AndNotLowMask(x: Usize, a: Usize)
    requires IsPowerOfTwo(a)
    ensures And(x, Not(a - 1)) == x - x % a
  {
    Pow2WordLimit();
    Pow2IsPowerOfTwo(64);
    assert Not(a - 1) == USIZE_LIMIT - a;
    AndClearsLowBits(x, a, USIZE_LIMIT);
  }

  /** `x - x % a` is the greatest multiple of `a` not above `x`. */
  lemma RoundDownIsMultiple(x: nat, a: nat)
    requires a > 0
    ensures IsMultipleOf(x - x % a, a)
    ensures x - x % a <= x < x - x % a + a
  {
    assert x - x % a == a * (x / a);
    MultipleOfProduct(a, x / a);
  }

  /** Two multiples of `a` that are closer than `a` are equal. */
  lemma MultiplesApart(m: nat, n: nat, a: nat)
    requires a > 0 && IsMultipleOf(m, a) && IsMultipleOf(n, a) && m < n
    ensures m + a <= n
  {
    var i, j := m / a, n / a;
    assert m == a * i;
    assert n == a * j;
    if j <= i {
      MulMonotone(a, j, i);
    }
    MulStep(a, i, j);
  }

  /** `x / d` counts the whole units of `d` in `x`, dropping the remainder. */
  lemma {:induction false} WholeUnits(x: nat, d: nat)
    requires d > 0
    ensures (x / d) * d <= x < (x / d) * d + d
  {
    assert x == d * (x / d) + x % d;
  }

  /** Whole quotients add up to at most the quotient of the sum. */
  lemma DivSumAtMost(x: nat, y: nat, d: nat)
    requires d > 0
    ensures x / d + y / d <= (x + y) / d
  {
    var qx, qy := x / d, y / d;
    assert x == d * qx + x % d;
    assert y == d * qy + y % d;
    assert x + y == d * (qx + qy) + (x % d + y % d);
    DivLowerBound(x + y, d, qx + qy);
  }

  /** `q` whole multiples of `d` fit in `z` only if `q` is at most `z / d`. */
  lemma DivLowerBound(z: nat, d: nat, q: nat)
    requires d > 0 && d * q <= z
    ensures q <= z / d
  {
    assert z == d * (z / d) + z % d;
    MulStep(d, z / d, q);
  }

  lemma DivMonotone(x: nat, y: nat, d: nat)
    requires d > 0 && x <= y
    ensures x / d <= y / d
  {
    assert x == d * (x / d) + x % d;
    DivLowerBound(y, d, x / d);
  }

  /** Adding a multiple of `a` keeps a multiple of `a`. */
  lemma MultipleAdd(m: nat, n: nat, a: nat)
    requires a > 0 && IsMultipleOf(m, a) && IsMultipleOf(n, a)
    ensures IsMultipleOf(m + n, a)
  {
    var i, j := m / a, n / a;
    assert m == a * i;
    assert n == a * j;
    assert m + n == a * (i + j);
    MultipleOfProduct(a, i + j);
  }

  /** A multiple of a multiple of `a` is a multiple of `a`. */
  lemma MultipleTransitive(m: nat, b: nat, a: nat)
    requires a > 0 && b > 0 && IsMultipleOf(m, b) && IsMultipleOf(b, a)
    ensures IsMultipleOf(m, a)
  {
    var i, j := m / b, b / a;
    assert m == b * i;
    assert b == a * j;
    assert m == a * (j * i);
    MultipleOfProduct(a, j * i);
  }

  /** `i` copies of a multiple of `a` make a multiple of `a`. */
  lemma MultipleScale(f: nat, i: nat, a: nat)
    requires a > 0 && IsMultipleOf(f, a)
    ensures IsMultipleOf(i * f, a)
  {
    if f > 0 {
      MultipleOfProduct(f, i);
      assert i * f == f * i;
      MultipleTransitive(i * f, f, a);
    } else {
      ModOfExact(0, a, 0, 0);
    }
  }

  /** The product of two powers of two is a power of two. */
  lemma PowerOfTwoProduct(a: nat, b: nat)
    requires IsPowerOfTwo(a) && IsPowerOfTwo(b)
    ensures IsPowerOfTwo(a * b)
  {
    var i, j := Log2(a), Log2(b);
    Pow2Add(i, j);
    Pow2IsPowerOfTwo(i + j);
  }
}

=== FILE: bump_allocator.dfy ===
/**
 The early (double-ended bump) allocator. One region `[start, end)` serves
 byte allocations from its low end and page allocations from its high end:

     [ bytes used | available | pages used ]
     start     bytePos     pagePos        end

 Byte space is given back one footprint at a time on deallocation, or all at
 once when the count of live byte allocations drops to zero; pages are never
 given back. `PAGE_SIZE`, a compile-time power of two in the Rust code, is the
 `pageSize` argument of the page operations here.
 */
module BumpAllocator {
  import opened Bits
  import opened Allocator

  datatype EarlyAllocator = EarlyAllocator(
    start: Usize,
    end: Usize,
    count: Usize,     // live byte allocations
    bytePos: Usize,   // end of the byte area, grows upward
    pagePos: Usize    // start of the page area, grows downward
  ) {
    /** The two cursors lie in order inside the region. */
    predicate Invariant() {
      start <= bytePos <= pagePos <= end
    }
  }

  /** `new`: every field zero, an empty region at address 0. */
  function New(): (a: EarlyAllocator)
    ensures a.Invariant() && a.count == 0 && a.start == a.end && a.start == 0
  {
    EarlyAllocator(0, 0, 0, 0, 0)
  }

  /** `align_up`: `(pos + align - 1) & !(align - 1)`. */
  function AlignUp(pos: Usize, align: Usize): (r: Usize)
    requires 1 <= align && pos + align < USIZE_LIMIT
    ensures IsPowerOfTwo(align) ==> IsMultipleOf(r, align) && pos <= r < pos + align
  {
    var x := pos + align - 1;
    AndAtMost(x, Not(align - 1));
    if IsPowerOfTwo(align) then
      AndNotLowMask(x, align);
      RoundDownIsMultiple(x, align);
      And(x, Not(align - 1))
    else
      And(x, Not(align - 1))
  }

  /** `align_down`: `pos & !(align - 1)`. */
  function AlignDown(pos: Usize, align: Usize): (r: Usize)
    requires 1 <= align
    ensures IsPowerOfTwo(align) ==> IsMultipleOf(r, align) && r <= pos < r + align
  {
    AndAtMost(pos, Not(align - 1));
    if IsPowerOfTwo(align) then
      AndNotLowMask(pos, align);
      RoundDownIsMultiple(pos, align);
      And(pos, Not(align - 1))
    else
      And(pos, Not(align - 1))
  }

  /** No multiple of `align` at or above `pos` lies below `AlignUp(pos, align)`. */
  lemma AlignUpIsLeast(pos: Usize, align: Usize, m: nat)
    requires IsPowerOfTwo(align) && pos + align < USIZE_LIMIT
    requires IsMultipleOf(m, align) && pos <= m
    ensures AlignUp(pos, align) <= m
  {
    var r := AlignUp(pos, align);
    if m < r {
      MultiplesApart(m, r, align);
    }
  }

  /** No multiple of `align` at or below `pos` lies above `AlignDown(pos, align)`. */
  lemma AlignDownIsGreatest(pos: Usize, align: Usize, m: nat)
    requires IsPowerOfTwo(align)
    requires IsMultipleOf(m, align) && m <= pos
    ensures m <= AlignDown(pos, align)
  {
    var r := AlignDown(pos, align);
    if r < m {
      MultiplesApart(r, m, align);
    }
  }

  /** The multiple of `align` in `(pos - align, pos]` is `align_down(pos)`. */
  lemma AlignDownIsUnique(pos: Usize, align: Usize, m: nat)
    requires IsPowerOfTwo(align) && IsMultipleOf(m, align) && m <= pos < m + align
    ensures AlignDown(pos, align) == m
  {
    AlignDownIsGreatest(pos, align, m);
    var r := AlignDown(pos, align);
    if m < r {
      MultiplesApart(m, r, align);
    }
  }

  /** An address that is already aligned is left where it is. */
  lemma AlignUpOfAligned(pos: Usize, align: Usize)
    requires IsPowerOfTwo(align) && pos + align < USIZE_LIMIT
    requires IsMultipleOf(pos, align)
    ensures AlignUp(pos, align) == pos
  {
    AlignUpIsLeast(pos, align, pos);
  }

  /** Only the null address aligns up to the null address. */
  lemma AlignUpNull(pos: Usize, align: Usize)
    requires IsPowerOfTwo(align) && pos + align < USIZE_LIMIT
    ensures AlignUp(pos, align) == 0 <==> pos == 0
  {
    if pos == 0 {
      ModOfExact(0, align, 0, 0);
      AlignUpOfAligned(0, align);
    }
  }

  /**
   The bytes one byte allocation consumes: its size rounded up to a power of
   two, but never less than its alignment nor less than a machine word.
   */
  function Footprint(layout: Layout): (r: Usize)
    requires layout.Valid()
    ensures IsPowerOfTwo(r) && IsMultipleOf(r, layout.align)
    ensures layout.size <= r && layout.align <= r && WORD_SIZE <= r
    ensures r / 2 < layout.size || r == layout.align || r == WORD_SIZE
  {
    NextPowerOfTwoFits(layout.size);
    var rounded := NextPowerOfTwo(layout.size);
    var floor := if layout.align < WORD_SIZE then WORD_SIZE else layout.align;
    assert IsPowerOfTwo(WORD_SIZE);
    var r := if rounded < floor then floor else rounded;
    PowerOfTwoDivides(layout.align, r);
    r
  }

  /** The value `byte_pos` takes if a byte request is granted. */
  function NextBytePos(a: EarlyAllocator, layout: Layout): nat
    requires layout.Valid() && a.bytePos + layout.align < USIZE_LIMIT
  {
    AlignUp(a.bytePos, layout.align) + Footprint(layout)
  }

  /** A byte request whose arithmetic stays inside `usize` (otherwise it panics). */
  predicate AllocDefined(a: EarlyAllocator, layout: Layout) {
    && layout.Valid()
    && a.bytePos + layout.align < USIZE_LIMIT
    && NextBytePos(a, layout) < USIZE_LIMIT
    && (NextBytePos(a, layout) <= a.pagePos ==> a.count + 1 < USIZE_LIMIT)
  }

  /**
   `alloc`: carve an aligned block from the low end of the gap. The request
   fails, changing nothing, when the block would run into the page area. A
   block at address 0 is committed but reported as `NoMemory` (the null check).
   */
  function Alloc(a: EarlyAllocator, layout: Layout): (r: (EarlyAllocator, AllocResult<Usize>))
    requires AllocDefined(a, layout)
    ensures r.0 == a <==> NextBytePos(a, layout) > a.pagePos
    ensures r.0 == a ==> r.1 == Err(NoMemory)
    ensures r.0 != a ==>
      && r.0 == a.(bytePos := r.0.bytePos, count := a.count + 1)
      && r.0.bytePos == NextBytePos(a, layout)
      && a.bytePos <= r.0.bytePos <= a.pagePos
      && (r.1.Ok? <==> a.bytePos != 0)
      && (r.1.Err? ==> r.1.error == NoMemory)
    ensures r.1.Ok? ==>
      && r.1.value == AlignUp(a.bytePos, layout.align)
      && IsMultipleOf(r.1.value, layout.align)
      && a.bytePos <= r.1.value
      && r.1.value + Footprint(layout) == r.0.bytePos
      && r.1.value + layout.size <= a.pagePos
    ensures a.Invariant() ==> r.0.Invariant()
  {
    var base := AlignUp(a.bytePos, layout.align);
    var next := base + Footprint(layout);
    AlignUpNull(a.bytePos, layout.align);
    if next > a.pagePos then
      (a, Err(NoMemory))
    else
      var a' := a.(bytePos := next, count := a.count + 1);
      (a', NonNullOrNoMemory(base))
  }

  /** A byte release whose arithmetic stays inside `usize` (otherwise it panics). */
  predicate DeallocDefined(a: EarlyAllocator, layout: Layout) {
    && layout.Valid()
    && 1 <= a.count
    && (a.count > 1 ==> Footprint(layout) <= a.bytePos)
  }

  /**
   `dealloc`: the last live allocation gives the whole byte area back;
   otherwise one footprint is taken off the top of it. The address is not
   looked at, so only a release in reverse order of allocation with the same
   layout gives back the block that was handed out.
   */
  function Dealloc(a: EarlyAllocator, pos: Usize, layout: Layout): (r: EarlyAllocator)
    requires DeallocDefined(a, layout)
    ensures r == a.(count := r.count, bytePos := r.bytePos)
    ensures r.count + 1 == a.count
    ensures r.count == 0 ==> r.bytePos == a.start
    ensures r.count != 0 ==> r.bytePos + Footprint(layout) == a.bytePos
  {
    var a' := a.(count := a.count - 1);
    if a'.count == 0 then
      a'.(bytePos := a'.start)
    else
      a'.(bytePos := a'.bytePos - Footprint(layout))
  }

  /**
   `alloc_pages` accepts an alignment: a multiple of the page size whose page
   count is a power of two. For a power-of-two page size these are exactly the
   powers of two that are at least one page.
   */
  predicate PageAlignValid(pageSize: Usize, alignPow2: Usize): (ok: bool)
    requires pageSize > 0
    ensures IsPowerOfTwo(pageSize) ==> (ok <==> IsPowerOfTwo(alignPow2) && pageSize <= alignPow2)
  {
    PowerOfTwoMultiples(pageSize, alignPow2);
    alignPow2 % pageSize == 0 && IsPowerOfTwo(alignPow2 / pageSize)
  }

  /** A page request whose arithmetic stays inside `usize` (otherwise it panics). */
  predicate AllocPagesDefined(a: EarlyAllocator, pageSize: Usize, numPages: Usize, alignPow2: Usize) {
    && IsPowerOfTwo(pageSize)
    && (PageAlignValid(pageSize, alignPow2) ==> numPages * pageSize <= a.pagePos)
  }

  /**
   Where `alloc_pages` puts the page cursor: `numPages` pages below it, then
   down to a multiple of `alignPow2 / pageSize`. That is the alignment the
   code applies: the quotient shadows the byte alignment it was computed from.
   */
  function PageTarget(a: EarlyAllocator, pageSize: Usize, numPages: Usize, alignPow2: Usize): (r: Usize)
    requires AllocPagesDefined(a, pageSize, numPages, alignPow2)
    requires PageAlignValid(pageSize, alignPow2)
    ensures r <= r + numPages * pageSize <= a.pagePos
    ensures IsMultipleOf(r, alignPow2 / pageSize)
    ensures a.pagePos - numPages * pageSize < r + alignPow2 / pageSize
  {
    var top := a.pagePos - numPages * pageSize;
    AlignDown(top, alignPow2 / pageSize)
  }

  /**
   `alloc_pages`: an invalid alignment is refused first; otherwise the request
   is granted at `PageTarget` unless that would run into the byte area. A
   refused request changes nothing.
   */
  function AllocPages(a: EarlyAllocator, pageSize: Usize, numPages: Usize, alignPow2: Usize)
    : (r: (EarlyAllocator, AllocResult<Usize>))
    requires AllocPagesDefined(a, pageSize, numPages, alignPow2)
    ensures r.1 == Err(InvalidParam) <==> !PageAlignValid(pageSize, alignPow2)
    ensures r.1.Err? ==> r.0 == a
    ensures r.1 == Err(NoMemory) <==>
      && PageAlignValid(pageSize, alignPow2)
      && PageTarget(a, pageSize, numPages, alignPow2) < a.bytePos
    ensures r.1.Ok? ==>
      && PageAlignValid(pageSize, alignPow2)
      && r.1.value == PageTarget(a, pageSize, numPages, alignPow2)
      && r.0 == a.(pagePos := r.1.value)
      && a.bytePos <= r.1.value
    ensures a.Invariant() ==> r.0.Invariant()
  {
    if !PageAlignValid(pageSize, alignPow2) then
      (a, Err(InvalidParam))
    else
      var next := PageTarget(a, pageSize, numPages, alignPow2);
      if next < a.bytePos then
        (a, Err(NoMemory))
      else
        (a.(pagePos := next), Ok(next))
  }

  /** `init`: the region `[start, start + size)`, both areas empty; `count` is left alone. */
  function Init(a: EarlyAllocator, start: Usize, size: Usize): (r: EarlyAllocator)
    requires start + size < USIZE_LIMIT
    ensures r.Invariant()
    ensures r.start == start && TotalBytes(r) == size
    ensures UsedBytes(r) == 0 && AvailableBytes(r) == size && r.pagePos == r.end
    ensures r.count == a.count
  {
    var end := start + size;
    a.(start := start, end := end, bytePos := start, pagePos := end)
  }

  /** `total_bytes`: the length of the region. */
  function TotalBytes(a: EarlyAllocator): (r: Usize)
    requires a.start <= a.end
    ensures a.start + r == a.end
  {
    a.end - a.start
  }

  /** `used_bytes`: the length of the byte area `[start, byte_pos)`; zero exactly when it is empty. */
  function UsedBytes(a: EarlyAllocator): (r: Usize)
    requires a.start <= a.bytePos
    ensures a.start + r == a.bytePos
    ensures r == 0 <==> a.bytePos == a.start
    ensures a.bytePos <= a.end ==> r <= TotalBytes(a)
  {
    a.bytePos - a.start
  }

  /** `available_bytes`: the length of the gap `[byte_pos, page_pos)` between the two areas. */
  function AvailableBytes(a: EarlyAllocator): (r: Usize)
    requires a.bytePos <= a.pagePos
    ensures a.bytePos + r == a.pagePos
    ensures a.start <= a.bytePos && a.pagePos <= a.end ==> r <= TotalBytes(a)
  {
    a.pagePos - a.bytePos
  }

  /** `total_pages`: the whole pages that fit in the region; a partial page is not counted. */
  function TotalPages(a: EarlyAllocator, pageSize: Usize): (r: Usize)
    requires IsPowerOfTwo(pageSize) && a.start <= a.end
    ensures r * pageSize <= a.end - a.start < r * pageSize + pageSize
  {
    WholeUnits(a.end - a.start, pageSize);
    (a.end - a.start) / pageSize
  }

  /** `used_pages`: the whole pages in the page area `[page_pos, end)`. */
  function UsedPages(a: EarlyAllocator, pageSize: Usize): (r: Usize)
    requires IsPowerOfTwo(pageSize) && a.pagePos <= a.end
    ensures r * pageSize <= a.end - a.pagePos < r * pageSize + pageSize
  {
    WholeUnits(a.end - a.pagePos, pageSize);
    (a.end - a.pagePos) / pageSize
  }

  /** `available_pages`: the whole pages that fit in the gap `[byte_pos, page_pos)`. */
  function AvailablePages(a: EarlyAllocator, pageSize: Usize): (r: Usize)
    requires IsPowerOfTwo(pageSize) && a.bytePos <= a.pagePos
    ensures r * pageSize <= a.pagePos - a.bytePos < r * pageSize + pageSize
  {
    WholeUnits(a.pagePos - a.bytePos, pageSize);
    (a.pagePos - a.bytePos) / pageSize
  }

  /**
   The byte area, the gap and the page area partition the region, so the
   three byte counts add up to the whole.
   */
  lemma CapacityIdentity(a: EarlyAllocator)
    requires a.Invariant()
    ensures UsedBytes(a) + AvailableBytes(a) + (a.end - a.pagePos) == TotalBytes(a)
  {
  }

  /** Counted in whole pages, the used and the available pages never exceed the total. */
  lemma PageCapacityBound(a: EarlyAllocator, pageSize: Usize)
    requires a.Invariant() && IsPowerOfTwo(pageSize)
    ensures UsedPages(a, pageSize) + AvailablePages(a, pageSize) <= TotalPages(a, pageSize)
  {
    var pages, gap := a.end - a.pagePos, a.pagePos - a.bytePos;
    DivSumAtMost(pages, gap, pageSize);
    DivMonotone(pages + gap, a.end - a.start, pageSize);
  }

  /**
   A granted byte request released straight away, with the same layout, puts
   the allocator back as it was when the cursor was already aligned: the
   only difference is the bulk reset when it was the only live allocation.
   */
  lemma AllocDeallocRoundTrip(a: EarlyAllocator, layout: Layout, pos: Usize)
    requires a.Invariant() && AllocDefined(a, layout)
    requires IsMultipleOf(a.bytePos, layout.align)
    requires NextBytePos(a, layout) <= a.pagePos
    ensures DeallocDefined(Alloc(a, layout).0, layout)
    ensures Dealloc(Alloc(a, layout).0, pos, layout)
         == if a.count == 0 then a.(bytePos := a.start) else a
  {
    AlignUpOfAligned(a.bytePos, layout.align);
  }

  /**
   Granting `n` requests of one layout from an empty, aligned byte area
   hands out `n` consecutive footprints; releasing `n` blocks of that layout,
   whatever their addresses and order, restores the allocator exactly, and
   the next request is served from the start of the region again.
   */
  method AllocThenReleaseAll(a: EarlyAllocator, layout: Layout, n: nat, released: seq<Usize>)
    returns (addrs: seq<Usize>, b: EarlyAllocator)
    requires a.Invariant() && a.count == 0 && a.bytePos == a.start && 0 < a.start
    requires layout.Valid() && IsMultipleOf(a.start, layout.align)
    requires a.start + n * Footprint(layout) <= a.pagePos
    requires |released| == n
    ensures |addrs| == n
    ensures forall k :: 0 <= k < n ==> addrs[k] == a.start + k * Footprint(layout)
    ensures b == a
    ensures n > 0 ==> AllocDefined(b, layout) && Alloc(b, layout).1 == Ok(a.start)
  {
    var s;
    addrs, s := AllocRun(a, layout, n);
    assert |released| == n;
    b := ReleaseRun(a, s, layout, released);
    if n > 0 {
      RunStep(0, n, Footprint(layout));
      FirstRequest(a, layout);
    }
  }

  /** From an empty, aligned byte area, a request that fits is served at `start`. */
  lemma FirstRequest(a: EarlyAllocator, layout: Layout)
    requires a.Invariant() && a.count == 0 && a.bytePos == a.start && 0 < a.start
    requires layout.Valid() && IsMultipleOf(a.start, layout.align)
    requires a.start + Footprint(layout) <= a.pagePos
    ensures AllocDefined(a, layout) && Alloc(a, layout).1 == Ok(a.start)
  {
    AlignUpOfAligned(a.start, layout.align);
  }

  /** `n` granted requests of one layout fill the byte area footprint by footprint. */
  method AllocRun(a: EarlyAllocator, layout: Layout, n: nat) returns (addrs: seq<Usize>, s: EarlyAllocator)
    requires a.Invariant() && a.count == 0 && a.bytePos == a.start && 0 < a.start
    requires layout.Valid() && IsMultipleOf(a.start, layout.align)
    requires a.start + n * Footprint(layout) <= a.pagePos
    ensures |addrs| == n
    ensures forall k :: 0 <= k < n ==> addrs[k] == a.start + k * Footprint(layout)
    ensures Filled(s, a, n, n * Footprint(layout))
  {
    var fp := Footprint(layout);
    s := a;
    addrs := [];
    var i, used := 0, 0;
    while i < n
      invariant i <= n && used == i * fp
      invariant |addrs| == i
      invariant forall k :: 0 <= k < i ==> addrs[k] == a.start + k * fp
      invariant Filled(s, a, i, used)
    {
      RunStep(i, n, fp);
      MultipleScale(fp, i, layout.align);
      AllocRunStep(a, s, layout, i, used, n * fp);
      var (s', res) := Alloc(s, layout);
      addrs := addrs + [res.value];
      s := s';
      i, used := i + 1, used + fp;
    }
  }

  /** One more request of the run is granted right after the previous ones. */
  lemma AllocRunStep(a: EarlyAllocator, s: EarlyAllocator, layout: Layout, i: nat, used: nat, total: nat)
    requires a.Invariant() && 0 < a.start
    requires layout.Valid() && IsMultipleOf(a.start, layout.align)
    requires IsMultipleOf(used, layout.align) && used + Footprint(layout) <= total && i < total
    requires a.start + total <= a.pagePos
    requires Filled(s, a, i, used)
    ensures AllocDefined(s, layout)
    ensures Alloc(s, layout).1 == Ok(a.start + used)
    ensures Filled(Alloc(s, layout).0, a, i + 1, used + Footprint(layout))
  {
    MultipleAdd(a.start, used, layout.align);
    AlignUpOfAligned(s.bytePos, layout.align);
  }

  /** `s` is `a` with `used` bytes in `k` live allocations in its byte area. */
  ghost predicate Filled(s: EarlyAllocator, a: EarlyAllocator, k: nat, used: nat) {
    && s.start == a.start && s.end == a.end && s.pagePos == a.pagePos
    && s.bytePos == a.start + used && s.count == k
  }

  /** Releasing as many blocks of one layout as there are live ones empties the byte area. */
  method ReleaseRun(a: EarlyAllocator, s: EarlyAllocator, layout: Layout, released: seq<Usize>)
    returns (b: EarlyAllocator)
    requires layout.Valid() && a.count == 0 && a.bytePos == a.start
    requires Filled(s, a, |released|, |released| * Footprint(layout))
    ensures b == a
  {
    var n, fp := |released|, Footprint(layout);
    TimesIsProduct(n, fp);
    b := s;
    var k: nat := n;
    while k > 0
      invariant k <= n
      invariant Filled(b, a, k, Times(k, fp))
    {
      ReleaseRunStep(a, b, layout, k, Times(k - 1, fp), released[n - k]);
      b := Dealloc(b, released[n - k], layout);
      k := k - 1;
    }
  }

  /** One more release of the run takes the top footprint off, or empties the area. */
  lemma ReleaseRunStep(a: EarlyAllocator, b: EarlyAllocator, layout: Layout, k: nat, rest: nat, pos: Usize)
    requires layout.Valid() && a.count == 0 && a.bytePos == a.start
    requires 0 < k && (k == 1 ==> rest == 0)
    requires Filled(b, a, k, rest + Footprint(layout))
    ensures DeallocDefined(b, layout)
    ensures Filled(Dealloc(b, pos, layout), a, k - 1, rest)
  {
  }

  /** `k` footprints of `fp` bytes, added up one at a time. */
  ghost function Times(k: nat, fp: nat): nat {
    if k == 0 then 0 else Times(k - 1, fp) + fp
  }

  lemma {:induction false} TimesIsProduct(k: nat, fp: nat)
    ensures Times(k, fp) == k * fp
  {
    if k > 0 {
      TimesIsProduct(k - 1, fp);
    }
  }


  /** Arithmetic of a run of `n` equal footprints. */
  lemma RunStep(i: nat, n: nat, fp: nat)
    requires i < n && fp >= 1
    ensures (i + 1) * fp == i * fp + fp <= n * fp
    ensures i < n * fp
  {
    MulMonotone(fp, i + 1, n);
    MulMonotone(i + 1, 1, fp);
  }

  /**
   `alloc_pages` as evidently intended: the page cursor is aligned down to a
   multiple of `alignPow2` bytes, so the block honours the requested
   alignment and stays page-aligned.
   */
  function AllocPagesAligned(a: EarlyAllocator, pageSize: Usize, numPages: Usize, alignPow2: Usize)
    : (r: (EarlyAllocator, AllocResult<Usize>))
    requires AllocPagesDefined(a, pageSize, numPages, alignPow2)
    ensures r.1 == Err(InvalidParam) <==> !PageAlignValid(pageSize, alignPow2)
    ensures r.1.Err? ==> r.0 == a
    ensures r.1.Ok? ==>
      && r.0 == a.(pagePos := r.1.value)
      && a.bytePos <= r.1.value
      && r.1.value + numPages * pageSize <= a.pagePos
      && IsMultipleOf(r.1.value, alignPow2)
      && IsMultipleOf(r.1.value, pageSize)
    ensures a.Invariant() ==> r.0.Invariant()
  {
    if alignPow2 % pageSize != 0 || !IsPowerOfTwo(alignPow2 / pageSize) then
      (a, Err(InvalidParam))
    else
      var top := a.pagePos - numPages * pageSize;
      ByteAlignedPages(top, pageSize, alignPow2);
      var next := AlignDown(top, alignPow2);
      if next < a.bytePos then
        (a, Err(NoMemory))
      else
        (a.(pagePos := next), Ok(next))
  }

  /** Aligning down to `alignPow2` bytes also lands on a page boundary. */
  lemma ByteAlignedPages(top: Usize, pageSize: Usize, alignPow2: Usize)
    requires IsPowerOfTwo(pageSize) && PageAlignValid(pageSize, alignPow2)
    ensures IsPowerOfTwo(alignPow2)
    ensures AlignDown(top, alignPow2) <= top
    ensures IsMultipleOf(AlignDown(top, alignPow2), alignPow2)
    ensures IsMultipleOf(AlignDown(top, alignPow2), pageSize)
  {
    var q := alignPow2 / pageSize;
    MultipleIsProduct(alignPow2, pageSize);
    assert IsPowerOfTwo(alignPow2) by {
      PowerOfTwoProduct(pageSize, q);
    }
    assert IsMultipleOf(alignPow2, pageSize) by {
      MultipleOfProduct(pageSize, q);
    }
    MultipleTransitive(AlignDown(top, alignPow2), alignPow2, pageSize);
  }

  /** The state of the scenarios below: a new allocator given `[0x10000, 0x20000)`. */
  lemma ScenarioState()
    ensures Init(New(), 0x10000, 0x10000) == EarlyAllocator(0x10000, 0x20000, 0, 0x10000, 0x20000)
  {
  }

  /**
   One page-aligned page from the region `[0x10000, 0x20000)` with 4 KiB pages
   is the top page. An alignment that is not a multiple of the page size is
   refused.
   */
  lemma PageAllocationScenario(a: EarlyAllocator)
    requires a == EarlyAllocator(0x10000, 0x20000, 0, 0x10000, 0x20000)
    ensures var r := AllocPages(a, 4096, 1, 4096);
      && r.1 == Ok(0x1F000)
      && UsedPages(r.0, 4096) == 1
      && AllocPages(r.0, 4096, 1, 4097) == (r.0, Err(InvalidParam))
  {
    SmallPowersOfTwo();
    var top := a.pagePos - 4096;
    ModOfExact(top, 1, top, 0);
    AlignDownIsUnique(top, 1, top);
    ModOfExact(a.end - top, 4096, 1, 0);
  }

  /**
   The page cursor is aligned to `alignPow2 / pageSize` bytes, not to
   `alignPow2`: an 8 KiB-aligned request on 4 KiB pages from the region
   `[0x10000, 0x20000)` comes back only 4 KiB-aligned.
   */
  lemma AllocPagesIgnoresByteAlignment(a: EarlyAllocator)
    requires a == EarlyAllocator(0x10000, 0x20000, 0, 0x10000, 0x20000)
    ensures AllocPages(a, 4096, 1, 8192).1 == Ok(0x1F000)
    ensures !IsMultipleOf(0x1F000, 8192)
  {
    SmallPowersOfTwo();
    var top := a.pagePos - 4096;
    ModOfExact(top, 2, 0xF800, 0);
    AlignDownIsUnique(top, 2, top);
    ModOfExact(0x1F000, 8192, 15, 4096);
  }

  /** The same request under the corrected definition lands on the 8 KiB boundary below. */
  lemma AllocPagesAlignedHonoursAlignment(a: EarlyAllocator)
    requires a == EarlyAllocator(0x10000, 0x20000, 0, 0x10000, 0x20000)
    ensures AllocPagesAligned(a, 4096, 1, 8192).1 == Ok(0x1E000)
  {
    SmallPowersOfTwo();
    var top := a.pagePos - 4096;
    ModOfExact(0x1E000, 8192, 15, 0);
    AlignDownIsUnique(top, 8192, 0x1E000);
  }
}

=== FILE: lab_allocator.dfy ===
/**
 The lab byte allocator: a buddy sub-allocator over the first `BUDDY_SIZE`
 bytes of the region, and a two-cursor scheme over the rest, up to the fixed
 address `MEMORY_END`:

     [ buddy | keep area -> ...          ... <- free area ]
     start   start+BUDDY_SIZE   keep    free     MEMORY_END

 The alignment of a request selects its class. Alignment 8 goes to the buddy
 allocator. Alignment 1 alternates by the parity of `count`: even requests
 re-point `free` at `MEMORY_END - size` (so only the latest such block is
 remembered), odd requests bump `keep` upward. The keep area is reclaimed in
 bulk when `count` drops back to zero.

 The buddy allocator is an external component: its state is the type
 parameter `B` and its operations are the functions of a `BuddyOps<B>`,
 about which nothing is assumed.
 */
module LabAllocator {
  import opened Bits
  import opened Allocator

  /** Bytes reserved at the front of the region for the buddy allocator, 2^18. */
  const BUDDY_SIZE: Usize := 0x4_0000

  /** The fixed upper bound of the heap in this environment. */
  const MEMORY_END: Usize := 0xffff_ffc0_8800_0000

  /** The buddy allocator's operations, supplied from outside the model. */
  datatype BuddyOps<!B> = BuddyOps(
    init: (B, Usize, Usize) -> B,
    alloc: (B, Layout) -> (B, AllocResult<Usize>),
    dealloc: (B, Usize, Layout) -> B
  )

  datatype LabByteAllocator<B> = LabByteAllocator(
    buddy: B,
    start: Usize,   // first address after the buddy zone
    count: Usize,   // alignment-1 requests made, minus releases of alignment other than 8
    free: Usize,    // start of the latest free-side block
    keep: Usize     // end of the keep area, grows upward
  ) {
    /** The keep area and the free area do not overlap and stay below `MEMORY_END`. */
    predicate Invariant() {
      start <= keep <= free <= MEMORY_END
    }
  }

  /** `new`: the given (fresh) buddy state and every cursor zero. */
  function New<B>(buddy: B): (a: LabByteAllocator<B>)
    ensures a.buddy == buddy && a.count == 0
    ensures a.start == 0 && a.keep == 0 && a.free == 0
  {
    LabByteAllocator(buddy, 0, 0, 0, 0)
  }

  /**
   `init`: hand the first `BUDDY_SIZE` bytes to the buddy allocator and start
   the keep area right after them. The donated `size` plays no part: the
   upper bound is `MEMORY_END`. `free` and `count` are not touched.
   */
  function Init<B>(a: LabByteAllocator<B>, ops: BuddyOps<B>, start: Usize, size: Usize)
    : (r: LabByteAllocator<B>)
    requires start + BUDDY_SIZE < USIZE_LIMIT
    ensures r.buddy == ops.init(a.buddy, start, BUDDY_SIZE)
    ensures r.start == start + BUDDY_SIZE && r.keep == r.start
    ensures r.count == a.count && r.free == a.free
  {
    var buddy := ops.init(a.buddy, start, BUDDY_SIZE);
    var s := start + BUDDY_SIZE;
    a.(buddy := buddy, start := s, keep := s)
  }

  /** The layout of a request in the keep/free class. */
  predicate IsByteClass(layout: Layout) {
    layout.align == 1
  }

  /**
   A request the code can serve without panicking: alignment 1 or 8 (any other
   alignment is unreachable), and counters and cursors that stay inside `usize`.
   */
  predicate AllocDefined<B>(a: LabByteAllocator<B>, layout: Layout) {
    && layout.Valid()
    && (layout.align == 1 || layout.align == 8)
    && (IsByteClass(layout) ==> a.count + 1 < USIZE_LIMIT)
    && (IsByteClass(layout) && a.count % 2 == 1 ==> a.keep + layout.size < USIZE_LIMIT)
  }

  /**
   `alloc`. The count goes up and the cursor moves before the check, so a
   refused alignment-1 request still leaves both changed.
   */
  function Alloc<B>(a: LabByteAllocator<B>, ops: BuddyOps<B>, layout: Layout)
    : (r: (LabByteAllocator<B>, AllocResult<Usize>))
    requires AllocDefined(a, layout)
    // the buddy class is the buddy allocator's business alone
    ensures layout.align == 8 ==>
      && r.0 == a.(buddy := ops.alloc(a.buddy, layout).0)
      && r.1 == ops.alloc(a.buddy, layout).1
    // the byte class always counts the request, granted or not
    ensures IsByteClass(layout) ==>
      && r.0.count == a.count + 1
      && r.0.buddy == a.buddy && r.0.start == a.start
      && (r.1.Err? ==> r.1.error == NoMemory)
    // even count: a block ending at MEMORY_END, granted iff it clears the keep area
    ensures IsByteClass(layout) && a.count % 2 == 0 ==>
      && r.0.keep == a.keep
      && r.0.free + layout.size == MEMORY_END
      && (r.1.Ok? <==> a.keep <= r.0.free)
      && (r.1.Ok? ==> r.1.value == r.0.free)
    // odd count: the block at the old keep, granted iff it ends by MEMORY_END
    ensures IsByteClass(layout) && a.count % 2 == 1 ==>
      && r.0.free == a.free
      && r.0.keep == a.keep + layout.size
      && (r.1.Ok? <==> r.0.keep <= MEMORY_END && 0 < a.keep)
      && (r.1.Ok? ==> r.1.value == a.keep)
  {
    if layout.align == 8 then
      var (buddy, res) := ops.alloc(a.buddy, layout);
      (a.(buddy := buddy), res)
    else
      var a1 := a.(count := a.count + 1);
      var size := layout.size;
      if (a1.count - 1) % 2 == 0 then
        var a2 := a1.(free := MEMORY_END - size);
        if a2.free < a2.keep then (a2, Err(NoMemory))
        else (a2, NonNullOrNoMemory(a2.free))
      else
        var a2 := a1.(keep := a1.keep + size);
        if a2.keep > MEMORY_END then (a2, Err(NoMemory))
        else (a2, NonNullOrNoMemory(a2.keep - size))
  }

  /** A release the code can perform without panicking. */
  predicate DeallocDefined<B>(a: LabByteAllocator<B>, layout: Layout) {
    layout.Valid() && (layout.align != 8 ==> 1 <= a.count)
  }

  /**
   `dealloc`: alignment 8 goes to the buddy allocator; any other alignment
   only counts down, and the keep area is emptied when the count reaches zero.
   The free cursor is never moved back.
   */
  function Dealloc<B>(a: LabByteAllocator<B>, ops: BuddyOps<B>, pos: Usize, layout: Layout)
    : (r: LabByteAllocator<B>)
    requires DeallocDefined(a, layout)
    ensures layout.align == 8 ==> r == a.(buddy := ops.dealloc(a.buddy, pos, layout))
    ensures layout.align != 8 ==>
      && r.count + 1 == a.count
      && r.buddy == a.buddy && r.start == a.start && r.free == a.free
      && (r.count == 0 ==> r.keep == r.start)
      && (r.count != 0 ==> r.keep == a.keep)
  {
    if layout.align == 8 then
      a.(buddy := ops.dealloc(a.buddy, pos, layout))
    else
      var a1 := a.(count := a.count - 1);
      if a1.count == 0 then a1.(keep := a1.start) else a1
  }

  /** `total_bytes`: everything from the end of the buddy zone up to `MEMORY_END`. */
  function TotalBytes<B>(a: LabByteAllocator<B>): (r: Usize)
    requires a.start <= MEMORY_END
    ensures a.start + r == MEMORY_END
  {
    MEMORY_END - a.start
  }

  /**
   `used_bytes`: the keep area `[start, keep)` and the latest free-side block
   `[free, MEMORY_END)` together; zero exactly when both are empty.
   */
  function UsedBytes<B>(a: LabByteAllocator<B>): (r: Usize)
    requires a.start <= a.keep && a.free <= MEMORY_END
    requires (a.keep - a.start) + (MEMORY_END - a.free) < USIZE_LIMIT
    ensures a.start + r + a.free == a.keep + MEMORY_END
    ensures r == 0 <==> a.keep == a.start && a.free == MEMORY_END
    ensures a.Invariant() ==> r <= TotalBytes(a)
  {
    (a.keep - a.start) + (MEMORY_END - a.free)
  }

  /** `available_bytes`: the length of the gap `[keep, free)` between the two areas. */
  function AvailableBytes<B>(a: LabByteAllocator<B>): (r: Usize)
    requires a.keep <= a.free
    ensures a.keep + r == a.free
    ensures a.Invariant() ==> r <= TotalBytes(a)
  {
    a.free - a.keep
  }

  /** With the cursors in order, used and available bytes add up to the total. */
  lemma CapacityIdentity<B>(a: LabByteAllocator<B>)
    requires a.Invariant()
    ensures UsedBytes(a) + AvailableBytes(a) == TotalBytes(a)
  {
  }

  /** The `size` handed to `init` changes nothing. */
  lemma InitIgnoresSize<B>(a: LabByteAllocator<B>, ops: BuddyOps<B>, start: Usize, size1: Usize, size2: Usize)
    requires start + BUDDY_SIZE < USIZE_LIMIT
    ensures Init(a, ops, start, size1) == Init(a, ops, start, size2)
  {
  }

  /**
   After an alignment-1 request the cursors are in order again exactly when a
   free-side request was granted, or a keep-side request stayed below `free`.
   Requests of the buddy class leave the cursors alone.
   */
  lemma AllocInvariant<B>(a: LabByteAllocator<B>, ops: BuddyOps<B>, layout: Layout)
    requires a.Invariant() && AllocDefined(a, layout)
    ensures var r := Alloc(a, ops, layout);
      r.0.Invariant() <==>
        || layout.align == 8
        || (a.count % 2 == 0 && r.1.Ok?)
        || (a.count % 2 == 1 && a.keep + layout.size <= a.free)
  {
    var r := Alloc(a, ops, layout);
    if IsByteClass(layout) && a.count % 2 == 0 {
      // the free-side address is never null: sizes stay below isize::MAX
      assert r.0.free == MEMORY_END - layout.size > 0;
    }
  }

  /**
   A granted keep-side request is only checked against `MEMORY_END`, so it can
   run into the latest free-side block, which stays in use.
   */
  lemma KeepSideCanOverlapFree<B>(a: LabByteAllocator<B>, ops: BuddyOps<B>, layout: Layout)
    requires a.Invariant() && AllocDefined(a, layout)
    requires IsByteClass(layout) && a.count % 2 == 1 && 0 < a.keep
    requires a.free < a.keep + layout.size <= MEMORY_END
    ensures Alloc(a, ops, layout).1 == Ok(a.keep)
    ensures Alloc(a, ops, layout).0.free < Alloc(a, ops, layout).0.keep
  {
  }

  /** Releases never disturb the order of the cursors. */
  lemma DeallocInvariant<B>(a: LabByteAllocator<B>, ops: BuddyOps<B>, pos: Usize, layout: Layout)
    requires a.Invariant() && DeallocDefined(a, layout)
    ensures Dealloc(a, ops, pos, layout).Invariant()
  {
  }

  /**
   Three 16-byte requests from an empty keep area: the free side, then the
   keep side, then the free side again, which hands out the same address.
   */
  lemma ThreeSmallRequests<B>(a: LabByteAllocator<B>, ops: BuddyOps<B>)
    requires a.count == 0 && a.keep == a.start && 0 < a.start && a.start + 32 <= MEMORY_END
    ensures var l := Layout(16, 1);
      && AllocDefined(a, l)
      && var (a1, r1) := Alloc(a, ops, l);
      && r1 == Ok(MEMORY_END - 16)
      && AllocDefined(a1, l)
      && var (a2, r2) := Alloc(a1, ops, l);
      && r2 == Ok(a.start)
      && AllocDefined(a2, l)
      && var (a3, r3) := Alloc(a2, ops, l);
      && r3 == Ok(MEMORY_END - 16)
      && a3.count == 3 && a3.keep == a.start + 16
  {
    var l := Layout(16, 1);
    assert l.Valid() by {
      assert IsPowerOfTwo(1);
    }
  }

  /**
   The state after `i` alignment-1 requests of `size` bytes from an empty keep
   area, `kept` of them in the keep area.
   */
  ghost predicate Alternated<B>(s: LabByteAllocator<B>, a: LabByteAllocator<B>, size: nat, i: nat, kept: nat) {
    && s.buddy == a.buddy && s.start == a.start
    && s.count == i && s.keep == a.start + kept
    && s.free == (if i == 0 then a.free else MEMORY_END - size)
  }

  /**
   Requests alternate between the two ends: the even-numbered ones all get
   `MEMORY_END - size`, the odd-numbered ones get consecutive keep-area blocks.
   Releasing every one of them empties the keep area; the free cursor stays.
   */
  method AlternateThenReleaseAll<B>(a: LabByteAllocator<B>, ops: BuddyOps<B>, layout: Layout, n: nat, released: seq<Usize>)
    returns (addrs: seq<Usize>, b: LabByteAllocator<B>)
    requires a.count == 0 && a.keep == a.start && 0 < a.start
    requires layout.Valid() && IsByteClass(layout) && n < USIZE_LIMIT
    requires a.start + ((n + 1) / 2) * layout.size <= MEMORY_END
    requires |released| == n
    ensures |addrs| == n
    ensures forall k :: 0 <= k < n && k % 2 == 0 ==> addrs[k] == MEMORY_END - layout.size
    ensures forall k :: 0 <= k < n && k % 2 == 1 ==> addrs[k] == a.start + (k / 2) * layout.size
    ensures b.count == 0 && b.keep == a.start && b.buddy == a.buddy && b.start == a.start
    ensures b.free == (if n == 0 then a.free else MEMORY_END - layout.size)
  {
    var s;
    addrs, s := AlternatingRun(a, ops, layout, n);
    b := s;
    var k: nat := n;
    while k > 0
      invariant k <= n
      invariant b.buddy == a.buddy && b.start == a.start && b.count == k
      invariant b.free == s.free
      invariant k == 0 ==> b.keep == a.start
    {
      b := Dealloc(b, ops, released[n - k], layout);
      k := k - 1;
    }
  }

  method AlternatingRun<B>(a: LabByteAllocator<B>, ops: BuddyOps<B>, layout: Layout, n: nat)
    returns (addrs: seq<Usize>, s: LabByteAllocator<B>)
    requires a.count == 0 && a.keep == a.start && 0 < a.start
    requires layout.Valid() && IsByteClass(layout) && n < USIZE_LIMIT
    requires a.start + ((n + 1) / 2) * layout.size <= MEMORY_END
    ensures |addrs| == n
    ensures forall k :: 0 <= k < n && k % 2 == 0 ==> addrs[k] == MEMORY_END - layout.size
    ensures forall k :: 0 <= k < n && k % 2 == 1 ==> addrs[k] == a.start + (k / 2) * layout.size
    ensures Alternated(s, a, layout.size, n, (n / 2) * layout.size)
  {
    addrs, s := [], a;
    var i: nat, kept: nat := 0, 0;
    while i < n
      invariant i <= n && |addrs| == i
      invariant kept == (i / 2) * layout.size
      invariant Alternated(s, a, layout.size, i, kept)
      invariant forall k :: 0 <= k < i && k % 2 == 0 ==> addrs[k] == MEMORY_END - layout.size
      invariant forall k :: 0 <= k < i && k % 2 == 1 ==> addrs[k] == a.start + (k / 2) * layout.size
    {
      AlternatingStep(a, s, ops, layout, n, i, kept);
      var (s', res) := Alloc(s, ops, layout);
      addrs := addrs + [res.value];
      if i % 2 == 1 {
        kept := kept + layout.size;
      }
      s, i := s', i + 1;
    }
  }

  /** One request of the alternating run. */
  lemma AlternatingStep<B>(a: LabByteAllocator<B>, s: LabByteAllocator<B>, ops: BuddyOps<B>, layout: Layout, n: nat, i: nat, kept: nat)
    requires a.count == 0 && a.keep == a.start && 0 < a.start
    requires layout.Valid() && IsByteClass(layout) && n < USIZE_LIMIT && i < n
    requires a.start + ((n + 1) / 2) * layout.size <= MEMORY_END
    requires kept == (i / 2) * layout.size
    requires Alternated(s, a, layout.size, i, kept)
    ensures AllocDefined(s, layout)
    ensures var (s', res) := Alloc(s, ops, layout);
      && res == Ok(if i % 2 == 0 then MEMORY_END - layout.size else a.start + kept)
      && var kept' := if i % 2 == 0 then kept else kept + layout.size;
      && kept' == ((i + 1) / 2) * layout.size
      && Alternated(s', a, layout.size, i + 1, kept')
  {
    HalfStep(i, n, layout.size, kept);
    if i % 2 == 0 {
      FreeSideStep(a, s, ops, layout, i, kept);
    } else {
      KeepSideStep(a, s, ops, layout, i, kept);
    }
  }

  /** The free-side request of the run: granted, since the keep area ends below it. */
  lemma FreeSideStep<B>(a: LabByteAllocator<B>, s: LabByteAllocator<B>, ops: BuddyOps<B>, layout: Layout, i: nat, kept: nat)
    requires layout.Valid() && IsByteClass(layout) && i % 2 == 0 && i + 1 < USIZE_LIMIT
    requires a.start + kept + layout.size <= MEMORY_END
    requires Alternated(s, a, layout.size, i, kept)
    ensures AllocDefined(s, layout)
    ensures Alloc(s, ops, layout).1 == Ok(MEMORY_END - layout.size)
    ensures Alternated(Alloc(s, ops, layout).0, a, layout.size, i + 1, kept)
  {
  }

  /** The keep-side request of the run: granted at the end of the keep area. */
  lemma KeepSideStep<B>(a: LabByteAllocator<B>, s: LabByteAllocator<B>, ops: BuddyOps<B>, layout: Layout, i: nat, kept: nat)
    requires layout.Valid() && IsByteClass(layout) && i % 2 == 1 && i + 1 < USIZE_LIMIT
    requires 0 < a.start && a.start + kept + layout.size <= MEMORY_END
    requires Alternated(s, a, layout.size, i, kept)
    ensures AllocDefined(s, layout)
    ensures Alloc(s, ops, layout).1 == Ok(a.start + kept)
    ensures Alternated(Alloc(s, ops, layout).0, a, layout.size, i + 1, kept + layout.size)
  {
  }

  /** Keep-area bytes after `i` and `i + 1` requests, and their bound within a run of `n`. */
  lemma HalfStep(i: nat, n: nat, size: nat, kept: nat)
    requires i < n && kept == (i / 2) * size
    ensures ((i + 1) / 2) * size == (if i % 2 == 0 then kept else kept + size)
    ensures kept + size <= ((n + 1) / 2) * size
  {
    MulMonotone(size, i / 2 + 1, (n + 1) / 2);
    if i % 2 == 1 {
      assert (i + 1) / 2 == i / 2 + 1;
    } else {
      assert (i + 1) / 2 == i / 2;
    }
  }

  /**
   As written, `init` leaves `free` where `new` put it, at 0: right after it
   the keep cursor is above the free cursor, used bytes exceed the total, and
   available bytes cannot be computed (`free - keep` underflows).
   */
  lemma InitLeavesFreeBelowKeep<B>(buddy: B, ops: BuddyOps<B>, start: Usize, size: Usize)
    requires start + BUDDY_SIZE <= MEMORY_END
    ensures var a := Init(New(buddy), ops, start, size);
      && a.free < a.keep
      && !a.Invariant()
      && UsedBytes(a) == MEMORY_END > TotalBytes(a)
  {
  }

  /**
   `init` with the free area starting empty at `MEMORY_END`: the cursors are
   in order, nothing is used and the whole range above the buddy zone is
   available.
   */
  function InitWithFreeAtEnd<B>(a: LabByteAllocator<B>, ops: BuddyOps<B>, start: Usize, size: Usize)
    : (r: LabByteAllocator<B>)
    requires start + BUDDY_SIZE <= MEMORY_END
    ensures r.Invariant()
    ensures r.buddy == ops.init(a.buddy, start, BUDDY_SIZE) && r.start == start + BUDDY_SIZE
    ensures r.count == a.count
    ensures UsedBytes(r) == 0 && AvailableBytes(r) == TotalBytes(r)
  {
    Init(a, ops, start, size).(free := MEMORY_END)
  }
}
